=== FILE: README.md ===
# Traffic model in Dafny

This project models the simulation engine of a small car-following traffic simulator. The
engine builds three trajectories on a fixed 10 ms grid:

- a **lead car** that follows a scripted scenario (constant velocity, a quick acceleration
  then braking, or a smooth jerk-driven acceleration);
- a **first follower** that starts 20 m from the origin and reacts to the lead car;
- a **second follower** that starts at 0 m and reacts to the first follower.

Each follower lives through two phases. Inside the reaction window it only carries its jerk
and acceleration forward. After the window, it looks up the leader's and its own sample from
one reaction time ago. It then applies one of six car-following laws:

- SAFE_DISTANCE
- PROPORTIONAL_ACCELERATION
- LINEAR_CAR_FOLLOWING
- KEEPING_UP
- LINEAR_PREDICION (the program's spelling)
- FIRST_ORDER

Every tick is integrated semi-implicitly: first the velocity, then the position, then the
time.

The modules follow the program's classes:

| module | file | what it models |
|---|---|---|
| `CarInstances` | `car_instance.dfy` | the four-field state record (`CarInstance.java`) |
| `CarMotions` | `car_motion.dfy` | the append-only trajectory store with lookup by time (`CarMotion.java`) |
| `Parameters` | `parameters.dfy` | the constants and enums (`TrafficModel.java:9-32`), as one immutable `Config`; `Default` holds the program's values |
| `Kinematics` | `kinematics.dfy` | `safeDistance`, `linearAccelerationDist`, `firstOrderDist` |
| `Simulation` | `simulation.dfy` | the shared integrator and the time grid |
| `LeadCar` | `lead_car.dfy` | `generateLeadCar` |
| `FollowingLaws` | `following_laws.dfy` | the six laws of `generateFollowingCar` |
| `FollowingCar` | `following_car.dfy` | `generateFollowingCar`: warm-up, delayed lookups, the tick loop |
| `TrafficRun` | `traffic_run.dfy` | the three generator calls of `run()` |

Modelling choices:

- Java `double` values are Dafny `real`s, and Java `long` times are `int`s.
- `Math.sqrt` is a function parameter `sqrt`. Lemmas that need its meaning take a `root`
  with `root >= 0` and `root * root` equal to its argument.
- Each generator is a method with a loop, and its postcondition is a predicate that
  describes the whole trajectory tick by tick:
  - `LeadCar.IsLeadRun` for the lead car;
  - `FollowingCar.IsFollowerRun` for a follower.
- The properties are lemmas over those predicates.

When `firstOrderDist` yields NaN, the comparison `expectedSafeDist + expectedBrakingDist >=
oldLeadPosition - oldPosition` is false (`TrafficModel.java:261-273`), so the FIRST_ORDER tick holds its acceleration and
jerk. `Kinematics.FirstOrderDist` returns `None` there, and `FollowingLaws.FirstOrderResponse`
answers `Hold`.

## Model

| member | source | states |
|---|---|---|
| CarInstances.NewCarInstance | CarInstance.java:12-17 | the constructor accepts any four values and the getters return exactly the arguments given |
| CarInstances.SetPosition | CarInstance.java:25-27 | after the setter the position getter returns the value just set; velocity, acceleration and jerk are unchanged |
| CarInstances.SetVelocity | CarInstance.java:32-34 | after the setter the velocity getter returns the value just set; the other three fields are unchanged |
| CarInstances.SetAcceleration | CarInstance.java:39-41 | after the setter the acceleration getter returns the value just set; the other three fields are unchanged |
| CarInstances.SetJerk | CarInstance.java:46-48 | after the setter the jerk getter returns the value just set; the other three fields are unchanged |
| CarInstances.SettersRebuildInstance | CarInstance.java:22-48 | copying every field of one instance into another through the setters and getters yields the first instance |
| CarMotions.Empty | CarMotion.java:14-15 | a new store holds two empty lists of equal length |
| CarMotions.AppendInstance | CarMotion.java:32-41 | appending adds exactly one time and one instance at the end, keeps the lists the same length, and leaves every earlier pair unchanged |
| CarMotions.IndexOf | CarMotion.java:23 | `indexOf` yields -1 exactly when the time is absent; otherwise it yields the first index holding it |
| CarMotions.GetInstance | CarMotion.java:22-25 | for a stored time, the lookup returns the instance at the first index whose time matches; an absent time is a precondition, because `get(-1)` throws |
| CarMotions.LookupOnIncreasingTimes | CarMotion.java:22-25 | when the times are strictly increasing, looking up the i-th time returns the i-th instance |
| CarMotions.AppendKeepsEarlierLookups | CarMotion.java:22-41 | an append never changes what a lookup of an already stored time returns |
| CarMotions.AppendedTimeLooksUpAppendedInstance | CarMotion.java:22-41 | appending a time above all stored ones keeps the times increasing, and looking it up returns exactly the instance appended with it |
| Simulation.SampleCount | TrafficModel.java:72-117 | a finished run holds exactly RUN_TIME/TIME_STEP + 1 samples, and the last one is at RUN_TIME, when the step divides the run time |
| Simulation.GridLengthIsDetermined | TrafficModel.java:136-295 | any two finished runs of the same parameters have identical sample times, so a follower's loop stops exactly where its leader's did |
| Simulation.WarmUpByIndex | TrafficModel.java:138 | the warm-up test `time < RXN_TIME` holds exactly for the samples below RXN_TIME/TIME_STEP |
| Simulation.DelayedLookupHits | TrafficModel.java:148-158 | once time >= RXN_TIME, the lookup at time - RXN_TIME finds a stored sample, namely the one RXN_TIME/TIME_STEP samples earlier |
| Kinematics.SafeDistance | TrafficModel.java:306-308 | with a negative deceleration bound, the safe distance at any non-negative speed is at least one vehicle length |
| Kinematics.SafeDistanceStrictlyIncreasing | TrafficModel.java:306-308 | with a negative deceleration bound, the safe distance grows strictly with speed on v >= 0 |
| Kinematics.LinearAccelerationDist | TrafficModel.java:319-321 | the distance solves the constant-acceleration equation v^2 = u^2 + 2*a*d |
| Kinematics.BrakingDistanceIsPositive | TrafficModel.java:319-321 | braking from a higher to a lower non-negative speed takes a positive distance |
| Kinematics.FirstOrderDist | TrafficModel.java:330-333 | the result is undefined (Java's NaN) exactly when the jerk is 0 or the discriminant is negative |
| Kinematics.FirstOrderTimeReachesTargetSpeed | TrafficModel.java:330-331 | with a true square root, the chosen time solves u + a*t + jerk*t^2/2 = v |
| Kinematics.FirstOrderBrakingTimeIsPositive | TrafficModel.java:330-331 | braking with negative jerk to a lower speed has a positive discriminant and a chosen time in the future |
| LeadCar.Scenario | TrafficModel.java:76-110 | the scenario picks only acceleration and jerk, and jerk is 0 outside SMOOTH_ACCELERATION; under SMOOTH_ACCELERATION the acceleration grows by jerk times the step |
| LeadCar.GenerateLeadCar | TrafficModel.java:62-120 | the trajectory starts at 50 m and 10 m/s; it has one sample per grid time up to the first multiple of the step reaching RUN_TIME; each sample is one scenario-plus-integration tick from the one before |
| LeadCar.LeadTickOrder | TrafficModel.java:113-115 | each tick updates the velocity with the new acceleration, then the position with the new velocity, then advances the time by one step |
| LeadCar.QuickAccelerationProfile | TrafficModel.java:81-92 | under QUICK_ACCELERATION the jerk is always 0; the acceleration is 0 before 5 s, 2.3 until 8 s, -0.5 until 10 s and 0 after |
| LeadCar.ConstantVelocityLead | TrafficModel.java:77-80 | under CONSTANT_VELOCITY the lead car keeps 10 m/s, and its position grows by 10 m/s times the elapsed time |
| LeadCar.SmoothAccelerationIntegratesJerk | TrafficModel.java:93-102 | under SMOOTH_ACCELERATION each tick adds jerk times the step to the acceleration; the jerk is 0.1 outside the 1 s to 5 s window, a*(1-a) from 1 s to 3 s and -a*(1-a) from 3 s to 5 s, with a the previous acceleration |
| LeadCar.DefaultLeadVelocity | TrafficModel.java:81-115 | with the program's constants the lead speed is 10 m/s until 5 s, rises linearly to 16.9 m/s at 8 s, falls to 15.9 m/s at 10 s and stays there |
| FollowingLaws.SafeDistanceLaw | TrafficModel.java:171-177 | SAFE_DISTANCE takes the leader's current velocity and keeps acceleration and jerk; the position it sets is one step short, so from rest the integrated sample lands exactly one safe distance behind the leader |
| FollowingLaws.ProportionalAcceleration | TrafficModel.java:183-192 | the proportional response is clamped into [MAX_DECEL, MAX_ACCEL] |
| FollowingLaws.ProportionalIsNearestAdmissible | TrafficModel.java:185-190 | the clamp yields the admissible acceleration nearest to the unclamped response |
| FollowingLaws.KeepingUp | TrafficModel.java:207-217 | KEEPING_UP yields MAX_ACCEL, MAX_DECEL or 0; with bounds around 0 it accelerates exactly when behind the safe position and brakes exactly when past it |
| FollowingLaws.LinearPrediction | TrafficModel.java:223-239 | equal speeds give 0; a faster follower gets MAX_DECEL or keeps its acceleration, and a slower one gets MAX_ACCEL or keeps it; a slower follower whose acceleration is not already MAX_ACCEL accelerates exactly when behind the safe position |
| FollowingLaws.LinearPredictionBrakesWithinReach | TrafficModel.java:225-230 | a faster follower brakes exactly when the distance needed to brake down to the leader's speed would carry it to the safe position or beyond |
| FollowingLaws.BrakeRamp | TrafficModel.java:252-260 | the braking ramp lands on MAX_DECEL or drops by MAX_JERK times the step; the new jerk equals the change of acceleration over the step; an acceleration already at MAX_DECEL is kept with jerk 0; with MAX_JERK >= 0 it never raises an acceleration at or above MAX_DECEL; it stays at or above MAX_DECEL whenever it started there and the previous jerk was at most -MAX_JERK (the overshoot test uses the previous jerk, so other previous jerks give no such guarantee); with MAX_JERK >= 0, a start at or above MAX_DECEL and a previous jerk at least -MAX_JERK, the new jerk lies between -MAX_JERK and 0 |
| FollowingLaws.AccelRamp | TrafficModel.java:275-283 | the acceleration ramp lands on MAX_ACCEL or rises by MAX_JERK times the step; the new jerk equals the change of acceleration over the step; an acceleration already at MAX_ACCEL is kept with jerk 0; with MAX_JERK >= 0 it never lowers an acceleration at or below MAX_ACCEL; it stays at or below MAX_ACCEL whenever it started there and the previous jerk was at least MAX_JERK (the overshoot test uses the previous jerk, so other previous jerks give no such guarantee); with MAX_JERK >= 0, a start at or below MAX_ACCEL and a previous jerk at most MAX_JERK, the new jerk lies between 0 and MAX_JERK |
| FollowingLaws.FirstOrderResponse | TrafficModel.java:244-285 | FIRST_ORDER brakes whenever the safe distance at the predicted leader speed covers the delayed gap; it accelerates exactly when that safe distance falls short of the gap and the delayed leader is no slower than the delayed follower; it holds only when the leader is slower; with a slower leader and a safe distance short of the gap, it holds when the constant-jerk braking distance is NaN, and otherwise brakes exactly when safe distance plus braking distance covers the gap |
| FollowingLaws.FirstOrder | TrafficModel.java:244-285 | FIRST_ORDER keeps position and velocity; it either holds acceleration and jerk, or sets a jerk equal to the change of acceleration over the step; it carries out the decision of FirstOrderResponse as FirstOrderRamp states: a hold keeps the state, a brake holds at MAX_DECEL with jerk 0 or lands on MAX_DECEL or drops by MAX_JERK times the step, never raises an acceleration at or above MAX_DECEL (MAX_JERK >= 0) and keeps the new jerk between -MAX_JERK and 0 when the previous one was at least -MAX_JERK; an acceleration mirrors this at MAX_ACCEL |
| FollowingLaws.FirstOrderRamp | TrafficModel.java:251-284 | for each decision: hold keeps the state; brake keeps an acceleration at MAX_DECEL with jerk 0, otherwise lands on MAX_DECEL or drops by MAX_JERK times the step, with MAX_JERK >= 0 never raises an acceleration at or above MAX_DECEL and, when the previous jerk was at least -MAX_JERK, keeps the new jerk between -MAX_JERK and 0; accelerate mirrors this at MAX_ACCEL |
| FollowingLaws.FirstOrderBrakingDistanceDefined | TrafficModel.java:261-262 | with a positive MAX_JERK the braking distance FIRST_ORDER asks for is never NaN |
| FollowingLaws.ApplyLaw | TrafficModel.java:166-289 | only SAFE_DISTANCE moves position and velocity before integration; only FIRST_ORDER changes the jerk |
| FollowingLaws.ApplyLawProportional | TrafficModel.java:183-192 | one PROPORTIONAL_ACCELERATION tick leaves the acceleration within the bounds |
| FollowingLaws.ApplyLawLinearCarFollowing | TrafficModel.java:198-201 | one LINEAR_CAR_FOLLOWING tick sets the acceleration to LAMBDA times the delayed speed difference |
| FollowingLaws.ApplyLawKeepingUp | TrafficModel.java:207-217 | one KEEPING_UP tick picks MAX_ACCEL, MAX_DECEL or 0 |
| FollowingLaws.ApplyLawLinearPrediction | TrafficModel.java:223-239 | one LINEAR_PREDICION tick picks MAX_ACCEL, MAX_DECEL, 0 or the acceleration it had |
| FollowingLaws.ApplyLawFirstOrder | TrafficModel.java:244-285 | one FIRST_ORDER tick either holds or sets a jerk matching the change of acceleration |
| FollowingLaws.ApplyLawSafeDistance | TrafficModel.java:171-177 | one SAFE_DISTANCE tick takes the leader's velocity and keeps the acceleration; from rest it ends one safe distance behind the leader's current sample |
| FollowingCar.FollowingStep | TrafficModel.java:138-294 | the loop body, with its real delayed lookups through the store, computes exactly the tick the trajectory predicate prescribes |
| FollowingCar.GenerateFollowingCar | TrafficModel.java:125-298 | the trajectory starts at the offset and 10 m/s; it has one sample per leader sample on the same grid; each sample is the warm-up or law tick from the one before |
| FollowingCar.WarmUpCarriesJerk | TrafficModel.java:138-145 | inside the reaction window a tick keeps the jerk, adds jerk times the step to the acceleration, then integrates velocity then position |
| FollowingCar.WarmUpSamplesAreAtRest | TrafficModel.java:131-145 | every follower sample up to time RXN_TIME has acceleration 0 and jerk 0 |
| FollowingCar.FollowerTickOrder | TrafficModel.java:291-293 | under every law but SAFE_DISTANCE each tick updates the velocity from the new acceleration, then the position from the new velocity, then the time by one step |
| FollowingCar.LinearCarFollowingExact | TrafficModel.java:198-201 | after the reaction window LINEAR_CAR_FOLLOWING's acceleration is exactly LAMBDA times the difference of the delayed leader and follower velocities, with no clamp |
| FollowingCar.ProportionalStaysWithinBounds | TrafficModel.java:183-192 | with bounds around 0, every follower sample under PROPORTIONAL_ACCELERATION has its acceleration within [MAX_DECEL, MAX_ACCEL] |
| FollowingCar.KeepingUpIsBangBang | TrafficModel.java:207-217 | every follower sample under KEEPING_UP has acceleration MAX_ACCEL, MAX_DECEL or 0 |
| FollowingCar.LinearPredictionAccelerations | TrafficModel.java:223-239 | every follower sample under LINEAR_PREDICION has acceleration MAX_ACCEL, MAX_DECEL or 0, even though a tick may keep the previous value |
| FollowingCar.SafeDistanceNeverAccelerates | TrafficModel.java:171-177 | under SAFE_DISTANCE every follower sample has acceleration 0 and jerk 0 |
| FollowingCar.SafeDistanceKeepsSafeGap | TrafficModel.java:171-177 | after the reaction window, SAFE_DISTANCE's next sample has the leader's current velocity and lies exactly one safe distance behind the leader's current position |
| FollowingCar.FirstOrderJerkMatchesAcceleration | TrafficModel.java:244-285 | under FIRST_ORDER every tick either keeps acceleration and jerk, or records a jerk equal to the change of acceleration over the step |
| TrafficRun.Run | TrafficModel.java:38-41 | the run builds the lead car, a follower behind it starting at 20 m, and a second follower behind that starting at 0 m, all on one time grid |
| TrafficRun.DefaultRunLength | TrafficModel.java:10-11 | with the program's constants every trajectory holds 10001 samples, from 0 ms to 100000 ms |

Members without a row fall into three groups:

- Functions that model source lines but carry no contract of their own. Rows for other
  members state their behaviour:
  - `Simulation.Advance` (`TrafficModel.java:113-114`, `291-292`): `LeadCar.LeadTickOrder`
    and `FollowingCar.FollowerTickOrder`.
  - `FollowingLaws.LinearCarFollowing` (`TrafficModel.java:200`):
    `FollowingLaws.ApplyLawLinearCarFollowing` and `FollowingCar.LinearCarFollowingExact`.
  - `FollowingLaws.WarmUpTick` (`TrafficModel.java:139-143`): `FollowingCar.WarmUpCarriesJerk`.
  - `FollowingLaws.PredictedLeadVelocity` (`TrafficModel.java:248`):
    `FollowingLaws.FirstOrderResponse`, whose clauses are stated through it.
  - `FollowingLaws.RampsAsDecided` (`TrafficModel.java:251-284`): the predicate in which
    `FollowingLaws.FirstOrderRamp` and `FollowingLaws.FirstOrder` state their per-decision
    clauses; their rows spell it out.
  - `LeadCar.QuickAcceleration` (`TrafficModel.java:82-90`): `LeadCar.QuickAccelerationProfile`.
  - `LeadCar.SmoothJerk` (`TrafficModel.java:94-100`): `LeadCar.SmoothAccelerationIntegratesJerk`.
  - `Kinematics.FirstOrderTime` and `Kinematics.Discriminant` (`TrafficModel.java:331`):
    `Kinematics.FirstOrderTimeReachesTargetSpeed`.
  - `LeadCar.LeadStart` (`TrafficModel.java:65-69`): `LeadCar.GenerateLeadCar`.
  - `FollowingCar.FollowerStart` (`TrafficModel.java:128-132`): `FollowingCar.GenerateFollowingCar`.
  - `FollowingLaws.SafePosition`, `FollowingLaws.ActiveTick`, `LeadCar.LeadTick` and
    `FollowingCar.SampleAfter`: these compose the laws and the integrator. The generator rows
    cover them.
- Grid and arithmetic lemmas: `MulMonotone`, `MulStrictlyMonotone`, `GridExtends`,
  `GridIsIncreasing`, `ScaleMonotone`, `StepReachesBound`, `PositiveProduct`,
  `SquareStrictlyMonotone` and `AdvanceFrom`.
- Loop-invariant lemmas of the generators: `LeadPrefixExtends`, `FollowerPrefixExtends`,
  `FollowerPrefixRoom`, `AtRestThroughWarmUp` and `TickOrderAt`.

## Left out

- The OSCILLATORY scenario (`TrafficModel.java:103-107`): it uses `Math.cos` and `Math.PI`,
  which have no exact counterpart over the reals. The `Case` datatype omits it.
- File output: `CarMotion.writeCarMotionToFile` and the file writing in `run()`
  (`TrafficModel.java:44-49`). These are I/O and number formatting.
- `Video.java`: the JavaFX animation, which is user interface only.
- IEEE-754 rounding, overflow and infinities. Reals are exact. The equality tests against
  MAX_DECEL and MAX_ACCEL in FIRST_ORDER are real equality.
- The only NaN the model keeps is `firstOrderDist`'s, as `None`.
- Kinematics.FirstOrderDist: the numeric value of `Math.sqrt` and `Math.pow`. `sqrt` is a
  parameter and `Math.pow(t, 3)` is `t*t*t`. The contract speaks of when the result is
  defined. The lemmas about the chosen time assume a true square root.
- Java `long` wrap-around: the times never exceed RUN_TIME + TIME_STEP, so `int` is used.
- The `times == null` branch of `appendInstance` (`CarMotion.java:33-36`): the fields are
  initialised at construction, so the branch is unreachable.
- CarMotions.GetInstance requires the time to be stored. Java throws in the other case
  (`get(-1)`), so that failure path is a precondition rather than a value.
- Parameters.Runnable, which the generators and the follower lemmas require, excludes some
  configurations that the Java code accepts at compile time:
  - a step that is not positive: the loops never end;
  - a reaction time that is not a non-negative multiple of the step: a delayed lookup asks
    for a time that was never stored, and Java throws;
  - MAX_DECEL == 0: the safe distance divides by it, which gives infinities.
- Kinematics.SafeDistance requires MAX_DECEL != 0. Java would divide by zero and yield an
  infinity or NaN, which a real cannot hold.
- Kinematics.LinearAccelerationDist requires a non-zero acceleration, for the same reason.
  Its only caller passes MAX_DECEL.
- The getters have no members of their own: they are the datatype's field destructors.
- FollowingCar.LinearCarFollowingExact is stated on sample indices, not on the times looked
  up. Simulation.DelayedLookupHits links the two: the lookup at time - RXN_TIME returns the
  sample DelayTicks earlier.
- FollowingCar.ProportionalStaysWithinBounds requires MAX_DECEL <= 0 <= MAX_ACCEL. Outside
  that range the warm-up samples (acceleration 0) are themselves out of bounds.
- The linear-scan cost of `indexOf` is not modelled; only its result is.

=== FILE: car_instance.dfy ===
/**
  The kinematic state of one vehicle at one instant: position (m), velocity (m/s),
  acceleration (m/s^2) and jerk (m/s^3).

  The Java class is a mutable record with a getter and a setter per field. Here it is an
  immutable datatype: the getters are the datatype's destructors, and each setter is a
  function returning the updated copy.
 */
module CarInstances {

  datatype CarInstance = CarInstance(position: real, velocity: real, acceleration: real, jerk: real)

  /** The constructor: stores its four arguments unchanged, with no validation. */
  function NewCarInstance(position: real, velocity: real, acceleration: real, jerk: real): (r: CarInstance)
    ensures r.position == position && r.velocity == velocity
    ensures r.acceleration == acceleration && r.jerk == jerk
  {
    CarInstance(position, velocity, acceleration, jerk)
  }

  function SetPosition(c: CarInstance, position: real): (r: CarInstance)
    ensures r.position == position
    ensures r.velocity == c.velocity && r.acceleration == c.acceleration && r.jerk == c.jerk
  {
    c.(position := position)
  }

  function SetVelocity(c: CarInstance, velocity: real): (r: CarInstance)
    ensures r.velocity == velocity
    ensures r.position == c.position && r.acceleration == c.acceleration && r.jerk == c.jerk
  {
    c.(velocity := velocity)
  }

  function SetAcceleration(c: CarInstance, acceleration: real): (r: CarInstance)
    ensures r.acceleration == acceleration
    ensures r.position == c.position && r.velocity == c.velocity && r.jerk == c.jerk
  {
    c.(acceleration := acceleration)
  }

  function SetJerk(c: CarInstance, jerk: real): (r: CarInstance)
    ensures r.jerk == jerk
    ensures r.position == c.position && r.velocity == c.velocity && r.acceleration == c.acceleration
  {
    c.(jerk := jerk)
  }

  /** Setting every field from the getters of another instance rebuilds that instance. */
  lemma SettersRebuildInstance(c: CarInstance, d: CarInstance)
    ensures SetJerk(SetAcceleration(SetVelocity(SetPosition(c, d.position), d.velocity), d.acceleration), d.jerk) == d
  {
  }
}

=== FILE: car_motion.dfy ===
/**
  The trajectory store of one vehicle: two parallel, append-only lists, one of sample times
  (milliseconds) and one of the CarInstance recorded at each time. Lookup is by exact time
  and returns the instance at the first index whose stored time matches.
 */
module CarMotions {
  import opened CarInstances

  datatype CarMotion = CarMotion(times: seq<int>, instances: seq<CarInstance>) {

    /** The two lists are kept the same length. */
    predicate Valid() {
      |times| == |instances|
    }

    /** Adds one time and one instance at the end of the lists. */
    function AppendInstance(instance: CarInstance, time: int): (r: CarMotion)
      requires Valid()
      ensures r.Valid()
      ensures |r.times| == |times| + 1
      ensures r.times[|times|] == time && r.instances[|times|] == instance
      ensures forall i :: 0 <= i < |times| ==> r.times[i] == times[i] && r.instances[i] == instances[i]
    {
      CarMotion(times + [time], instances + [instance])
    }

    /**
      The instance stored with `time`. Java's `indexOf` yields -1 for a time that was never
      appended and `get(-1)` then throws, so a present time is a precondition.
     */
    function GetInstance(time: int): (r: CarInstance)
      requires Valid()
      requires time in times
      ensures exists i :: 0 <= i < |times| && times[i] == time && instances[i] == r
                          && forall j :: 0 <= j < i ==> times[j] != time
    {
      instances[IndexOf(times, time)]
    }
  }

  /** An empty store, as `new CarMotion()` creates. */
  function Empty(): (r: CarMotion)
    ensures r.Valid() && |r.times| == 0
  {
    CarMotion([], [])
  }

  /** `List.indexOf`: the first index holding `t`, or -1 when there is none. */
  function IndexOf(s: seq<int>, t: int): (k: int)
    ensures -1 <= k < |s|
    ensures k == -1 <==> t !in s
    ensures 0 <= k ==> s[k] == t && forall j :: 0 <= j < k ==> s[j] != t
  {
    if |s| == 0 then -1
    else if s[0] == t then 0
    else
      var k := IndexOf(s[1..], t);
      if k == -1 then -1 else k + 1
  }

  predicate StrictlyIncreasing(s: seq<int>) {
    forall i, j :: 0 <= i < j < |s| ==> s[i] < s[j]
  }

  /** On strictly increasing times, the lookup of the time at index i returns the instance at i. */
  lemma LookupOnIncreasingTimes(m: CarMotion, i: int)
    requires m.Valid() && StrictlyIncreasing(m.times)
    requires 0 <= i < |m.times|
    ensures m.times[i] in m.times
    ensures m.GetInstance(m.times[i]) == m.instances[i]
  {
  }

  /** Appending never changes what an earlier lookup returns. */
  lemma AppendKeepsEarlierLookups(m: CarMotion, instance: CarInstance, time: int, u: int)
    requires m.Valid() && u in m.times
    ensures u in m.AppendInstance(instance, time).times
    ensures m.AppendInstance(instance, time).GetInstance(u) == m.GetInstance(u)
  {
  }

  /**
    Appending a time larger than every stored one keeps the times strictly increasing, and
    the lookup of that time then returns exactly the instance appended with it.
   */
  lemma AppendedTimeLooksUpAppendedInstance(m: CarMotion, instance: CarInstance, time: int)
    requires m.Valid() && StrictlyIncreasing(m.times)
    requires forall i :: 0 <= i < |m.times| ==> m.times[i] < time
    ensures StrictlyIncreasing(m.AppendInstance(instance, time).times)
    ensures time in m.AppendInstance(instance, time).times
    ensures m.AppendInstance(instance, time).GetInstance(time) == instance
  {
    var r := m.AppendInstance(instance, time);
    LookupOnIncreasingTimes(r, |m.times|);
  }
}

=== FILE: following_car.dfy ===
/**
  A following car: driven tick by tick from the trajectory of the car ahead. Inside the
  reaction window it carries its jerk and acceleration forward; after it, each tick looks
  up the leader's and its own samples one reaction time ago and applies the chosen law.
 */
module FollowingCar {
  import opened CarInstances
  import opened CarMotions
  import opened Parameters
  import opened Kinematics
  import opened Simulation
  import opened FollowingLaws

  /** A following car at time 0: `offset` meters, 10 m/s, no acceleration, no jerk. */
  function FollowerStart(offset: real): CarInstance {
    CarInstance(offset, 10.0, 0.0, 0.0)
  }

  /**
    The sample a following car records after its i-th one: a warm-up tick inside the
    reaction window, and after it a law tick fed with the leader's and the follower's
    samples DelayTicks earlier and the leader's sample i.
   */
  function SampleAfter(cfg: Config, lead: CarMotion, m: CarMotion, sqrt: real -> real, i: int): CarInstance
    requires Runnable(cfg)
    requires 0 <= i < |m.instances| && i < |lead.instances|
  {
    var d := DelayTicks(cfg);
    if i < d then WarmUpTick(cfg, m.instances[i])
    else ActiveTick(cfg, lead.instances[i - d], m.instances[i - d], lead.instances[i], m.instances[i], sqrt)
  }

  /** Sample i+1 of `m` is the one the following car records after sample i. */
  ghost predicate FollowsAt(cfg: Config, lead: CarMotion, sqrt: real -> real, m: CarMotion, i: int)
    requires Runnable(cfg)
  {
    && 0 <= i < |m.instances| - 1 && i < |lead.instances|
    && m.instances[i + 1] == SampleAfter(cfg, lead, m, sqrt, i)
  }

  /** A following trajectory under construction, behind the finished trajectory `lead`. */
  ghost predicate IsFollowerPrefix(cfg: Config, lead: CarMotion, offset: real, sqrt: real -> real, m: CarMotion)
    requires Runnable(cfg)
  {
    && TickGrid(cfg, lead)
    && OnGrid(m, cfg.timeStep)
    && |m.times| <= |lead.times|
    && m.instances[0] == FollowerStart(offset)
    && (forall i :: 0 <= i < |m.times| - 1 ==> m.times[i] < cfg.runTime)
    && forall i :: 0 <= i < |m.times| - 1 ==> FollowsAt(cfg, lead, sqrt, m, i)
  }

  /** A complete following trajectory: one sample per tick of the leader's trajectory. */
  ghost predicate IsFollowerRun(cfg: Config, lead: CarMotion, offset: real, sqrt: real -> real, m: CarMotion)
    requires Runnable(cfg)
  {
    && IsFollowerPrefix(cfg, lead, offset, sqrt, m)
    && TickGrid(cfg, m)
    && |m.times| == |lead.times|
  }

  lemma FollowerPrefixRoom(cfg: Config, lead: CarMotion, offset: real, sqrt: real -> real, m: CarMotion, time: int)
    requires Runnable(cfg)
    requires IsFollowerPrefix(cfg, lead, offset, sqrt, m)
    requires time == (|m.times| - 1) * cfg.timeStep && time < cfg.runTime
    ensures |m.times| < |lead.times|
  {
    var n := |m.times| - 1;
    if |lead.times| - 1 <= n {
      MulMonotone(|lead.times| - 1, n, cfg.timeStep);
      assert false;
    }
  }

  lemma FollowerPrefixExtends(cfg: Config, lead: CarMotion, offset: real, sqrt: real -> real, m: CarMotion, time: int)
    requires Runnable(cfg)
    requires IsFollowerPrefix(cfg, lead, offset, sqrt, m)
    requires time == (|m.times| - 1) * cfg.timeStep && time < cfg.runTime
    requires |m.times| < |lead.times|
    ensures IsFollowerPrefix(cfg, lead, offset, sqrt,
              m.AppendInstance(SampleAfter(cfg, lead, m, sqrt, |m.times| - 1), time + cfg.timeStep))
  {
    var next := SampleAfter(cfg, lead, m, sqrt, |m.times| - 1);
    var m' := m.AppendInstance(next, time + cfg.timeStep);
    GridExtends(m, next, time + cfg.timeStep, cfg.timeStep);
    forall i | 0 <= i < |m'.times| - 1
      ensures FollowsAt(cfg, lead, sqrt, m', i)
    {
      if i < |m.times| - 1 {
        assert FollowsAt(cfg, lead, sqrt, m, i);
        assert m'.instances[i + 1] == m.instances[i + 1];
      }
      assert SampleAfter(cfg, lead, m', sqrt, i) == SampleAfter(cfg, lead, m, sqrt, i);
    }
  }

  /**
    One tick of the following car at `time`, the time of its last sample `s`: the Java loop
    body, with the delayed lookups made through the trajectory store.
   */
  method FollowingStep(cfg: Config, leadCar: CarMotion, followingCar: CarMotion, time: int,
                       s: CarInstance, sqrt: real -> real) returns (next: CarInstance)
    requires Runnable(cfg)
    requires TickGrid(cfg, leadCar) && OnGrid(followingCar, cfg.timeStep)
    requires |followingCar.times| < |leadCar.times|
    requires time == (|followingCar.times| - 1) * cfg.timeStep
    requires s == followingCar.instances[|followingCar.times| - 1]
    ensures next == SampleAfter(cfg, leadCar, followingCar, sqrt, |followingCar.times| - 1)
  {
    ghost var i := |followingCar.times| - 1;
    WarmUpByIndex(cfg, followingCar, i);
    if time < cfg.rxnTime {
      next := WarmUpTick(cfg, s);
    } else {
      DelayedLookupHits(cfg, leadCar, i);
      DelayedLookupHits(cfg, followingCar, i);
      var oldLead := leadCar.GetInstance(time - cfg.rxnTime);
      var oldOwn := followingCar.GetInstance(time - cfg.rxnTime);
      var currentLead := oldLead;
      if cfg.chosenModel == SAFE_DISTANCE {
        GridIsIncreasing(leadCar, cfg.timeStep);
        LookupOnIncreasingTimes(leadCar, i);
        currentLead := leadCar.GetInstance(time);
      }
      next := ActiveTick(cfg, oldLead, oldOwn, currentLead, s, sqrt);
    }
  }

  method GenerateFollowingCar(cfg: Config, leadCar: CarMotion, offset: real, sqrt: real -> real)
    returns (followingCar: CarMotion)
    requires Runnable(cfg)
    requires TickGrid(cfg, leadCar)
    ensures IsFollowerRun(cfg, leadCar, offset, sqrt, followingCar)
  {
    var time := 0;
    var s := FollowerStart(offset);
    followingCar := Empty().AppendInstance(s, time);
    while time < cfg.runTime
      invariant IsFollowerPrefix(cfg, leadCar, offset, sqrt, followingCar)
      invariant time == (|followingCar.times| - 1) * cfg.timeStep
      invariant s == followingCar.instances[|followingCar.times| - 1]
      decreases cfg.runTime - time
    {
      FollowerPrefixRoom(cfg, leadCar, offset, sqrt, followingCar, time);
      FollowerPrefixExtends(cfg, leadCar, offset, sqrt, followingCar, time);
      s := FollowingStep(cfg, leadCar, followingCar, time, s, sqrt);
      time := time + cfg.timeStep;
      followingCar := followingCar.AppendInstance(s, time);
    }
    GridLengthIsDetermined(cfg, leadCar, followingCar);
  }

  /**
    Inside the reaction window a tick carries the jerk unchanged and adds jerk times the
    step to the acceleration, then integrates as usual.
   */
  lemma WarmUpCarriesJerk(cfg: Config, lead: CarMotion, offset: real, sqrt: real -> real, m: CarMotion, i: int)
    requires Runnable(cfg) && IsFollowerRun(cfg, lead, offset, sqrt, m)
    requires 0 <= i < |m.times| - 1 && m.times[i] < cfg.rxnTime
    ensures m.instances[i + 1].jerk == m.instances[i].jerk
    ensures m.instances[i + 1].acceleration == m.instances[i].acceleration + m.instances[i].jerk * StepSeconds(cfg)
    ensures m.instances[i + 1].velocity == m.instances[i].velocity + m.instances[i + 1].acceleration * StepSeconds(cfg)
    ensures m.instances[i + 1].position == m.instances[i].position + m.instances[i + 1].velocity * StepSeconds(cfg)
  {
    hide ApplyLaw;
    WarmUpByIndex(cfg, m, i);
    assert FollowsAt(cfg, lead, sqrt, m, i);
  }

  lemma {:induction false} AtRestThroughWarmUp(cfg: Config, lead: CarMotion, offset: real, sqrt: real -> real, m: CarMotion, i: int)
    requires Runnable(cfg) && IsFollowerRun(cfg, lead, offset, sqrt, m)
    requires 0 <= i < |m.times| && i <= DelayTicks(cfg)
    ensures m.instances[i].acceleration == 0.0 && m.instances[i].jerk == 0.0
  {
    hide ApplyLaw;
    if i > 0 {
      AtRestThroughWarmUp(cfg, lead, offset, sqrt, m, i - 1);
      assert FollowsAt(cfg, lead, sqrt, m, i - 1);
    }
  }

  /**
    Every sample up to the end of the reaction window has acceleration and jerk 0: both
    start at 0 and the warm-up ticks only carry them forward.
   */
  lemma WarmUpSamplesAreAtRest(cfg: Config, lead: CarMotion, offset: real, sqrt: real -> real, m: CarMotion, i: int)
    requires Runnable(cfg) && IsFollowerRun(cfg, lead, offset, sqrt, m)
    requires 0 <= i < |m.times| && m.times[i] <= cfg.rxnTime
    ensures m.instances[i].acceleration == 0.0 && m.instances[i].jerk == 0.0
  {
    hide ApplyLaw;
    if i > 0 {
      WarmUpByIndex(cfg, m, i - 1);
      assert m.times[i - 1] < m.times[i] by {
        GridIsIncreasing(m, cfg.timeStep);
      }
    }
    AtRestThroughWarmUp(cfg, lead, offset, sqrt, m, i);
  }

  /** One recorded tick integrates in the fixed order, for every tick that keeps position and velocity. */
  lemma TickOrderAt(cfg: Config, lead: CarMotion, m: CarMotion, sqrt: real -> real, i: int)
    requires Runnable(cfg) && FollowsAt(cfg, lead, sqrt, m, i)
    requires cfg.chosenModel != SAFE_DISTANCE || i < DelayTicks(cfg)
    ensures m.instances[i + 1].velocity == m.instances[i].velocity + m.instances[i + 1].acceleration * StepSeconds(cfg)
    ensures m.instances[i + 1].position == m.instances[i].position + m.instances[i + 1].velocity * StepSeconds(cfg)
  {
    hide ApplyLaw;
    var d := DelayTicks(cfg);
    var s := m.instances[i];
    if i < d {
      AdvanceFrom(cfg, s, s.(acceleration := s.acceleration + s.jerk * StepSeconds(cfg)), m.instances[i + 1]);
    } else {
      AdvanceFrom(cfg, s, ApplyLaw(cfg, lead.instances[i - d], m.instances[i - d], lead.instances[i], s, sqrt), m.instances[i + 1]);
    }
  }

  /**
    Under every law but SAFE_DISTANCE each tick integrates in the fixed order: the new
    velocity takes the new acceleration, the new position the new velocity, and the time
    moves on one step.
   */
  lemma FollowerTickOrder(cfg: Config, lead: CarMotion, offset: real, sqrt: real -> real, m: CarMotion, i: int)
    requires Runnable(cfg) && IsFollowerRun(cfg, lead, offset, sqrt, m)
    requires cfg.chosenModel != SAFE_DISTANCE
    requires 0 <= i < |m.times| - 1
    ensures m.times[i + 1] == m.times[i] + cfg.timeStep
    ensures m.instances[i + 1].velocity == m.instances[i].velocity + m.instances[i + 1].acceleration * StepSeconds(cfg)
    ensures m.instances[i + 1].position == m.instances[i].position + m.instances[i + 1].velocity * StepSeconds(cfg)
  {
    hide FollowsAt;
    assert FollowsAt(cfg, lead, sqrt, m, i);
    TickOrderAt(cfg, lead, m, sqrt, i);
  }

  /**
    LINEAR_CAR_FOLLOWING: after the reaction window the new acceleration is exactly lambda
    times the difference of the leader's and the follower's velocities DelayTicks samples
    earlier, with no clamp. Those are the samples the lookups one reaction time earlier
    return (DelayedLookupHits).
   */
  lemma LinearCarFollowingExact(cfg: Config, lead: CarMotion, offset: real, sqrt: real -> real, m: CarMotion, i: int)
    requires Runnable(cfg) && IsFollowerRun(cfg, lead, offset, sqrt, m)
    requires cfg.chosenModel == LINEAR_CAR_FOLLOWING
    requires DelayTicks(cfg) <= i < |m.times| - 1
    ensures m.instances[i + 1].acceleration
            == cfg.lambda * (lead.instances[i - DelayTicks(cfg)].velocity - m.instances[i - DelayTicks(cfg)].velocity)
  {
    hide ApplyLaw;
    var d := DelayTicks(cfg);
    assert FollowsAt(cfg, lead, sqrt, m, i);
    ApplyLawLinearCarFollowing(cfg, lead.instances[i - d], m.instances[i - d], lead.instances[i], m.instances[i], sqrt);
  }

  /**
    PROPORTIONAL_ACCELERATION: with bounds around 0, every sample's acceleration lies within
    [maxDecel, maxAccel].
   */
  lemma ProportionalStaysWithinBounds(cfg: Config, lead: CarMotion, offset: real, sqrt: real -> real, m: CarMotion, i: int)
    requires Runnable(cfg) && IsFollowerRun(cfg, lead, offset, sqrt, m)
    requires cfg.chosenModel == PROPORTIONAL_ACCELERATION && cfg.maxDecel <= 0.0 <= cfg.maxAccel
    requires 0 <= i < |m.times|
    ensures cfg.maxDecel <= m.instances[i].acceleration <= cfg.maxAccel
  {
    hide ApplyLaw;
    var j, d := i - 1, DelayTicks(cfg);
    if i <= d {
      AtRestThroughWarmUp(cfg, lead, offset, sqrt, m, i);
    } else {
      assert FollowsAt(cfg, lead, sqrt, m, j);
      ApplyLawProportional(cfg, lead.instances[j - d], m.instances[j - d], lead.instances[j], m.instances[j], sqrt);
    }
  }

  /** KEEPING_UP: every sample's acceleration is maxAccel, maxDecel or 0. */
  lemma KeepingUpIsBangBang(cfg: Config, lead: CarMotion, offset: real, sqrt: real -> real, m: CarMotion, i: int)
    requires Runnable(cfg) && IsFollowerRun(cfg, lead, offset, sqrt, m)
    requires cfg.chosenModel == KEEPING_UP
    requires 0 <= i < |m.times|
    ensures var a := m.instances[i].acceleration; a == cfg.maxAccel || a == cfg.maxDecel || a == 0.0
  {
    hide ApplyLaw;
    var j, d := i - 1, DelayTicks(cfg);
    if i <= d {
      AtRestThroughWarmUp(cfg, lead, offset, sqrt, m, i);
    } else {
      assert FollowsAt(cfg, lead, sqrt, m, j);
      ApplyLawKeepingUp(cfg, lead.instances[j - d], m.instances[j - d], lead.instances[j], m.instances[j], sqrt);
    }
  }

  /**
    LINEAR_PREDICION: although a tick may keep the previous acceleration, every sample's
    acceleration is still maxAccel, maxDecel or 0, since the held value was one of them.
   */
  lemma {:induction false} LinearPredictionAccelerations(cfg: Config, lead: CarMotion, offset: real, sqrt: real -> real, m: CarMotion, i: int)
    requires Runnable(cfg) && IsFollowerRun(cfg, lead, offset, sqrt, m)
    requires cfg.chosenModel == LINEAR_PREDICION
    requires 0 <= i < |m.times|
    ensures var a := m.instances[i].acceleration; a == cfg.maxAccel || a == cfg.maxDecel || a == 0.0
  {
    hide ApplyLaw;
    var j, d := i - 1, DelayTicks(cfg);
    if i <= d {
      AtRestThroughWarmUp(cfg, lead, offset, sqrt, m, i);
    } else {
      LinearPredictionAccelerations(cfg, lead, offset, sqrt, m, j);
      assert FollowsAt(cfg, lead, sqrt, m, j);
      ApplyLawLinearPrediction(cfg, lead.instances[j - d], m.instances[j - d], lead.instances[j], m.instances[j], sqrt);
    }
  }

  /** SAFE_DISTANCE never changes acceleration or jerk, so both stay 0 throughout. */
  lemma {:induction false} SafeDistanceNeverAccelerates(cfg: Config, lead: CarMotion, offset: real, sqrt: real -> real, m: CarMotion, i: int)
    requires Runnable(cfg) && IsFollowerRun(cfg, lead, offset, sqrt, m)
    requires cfg.chosenModel == SAFE_DISTANCE
    requires 0 <= i < |m.times|
    ensures m.instances[i].acceleration == 0.0 && m.instances[i].jerk == 0.0
  {
    hide ApplyLaw;
    if i <= DelayTicks(cfg) {
      AtRestThroughWarmUp(cfg, lead, offset, sqrt, m, i);
    } else {
      var j, d := i - 1, DelayTicks(cfg);
      SafeDistanceNeverAccelerates(cfg, lead, offset, sqrt, m, j);
      assert FollowsAt(cfg, lead, sqrt, m, j);
      ApplyLawSafeDistance(cfg, lead.instances[j - d], m.instances[j - d], lead.instances[j], m.instances[j], sqrt);
    }
  }

  /**
    SAFE_DISTANCE: after the reaction window the follower's sample after time t has the
    leader's velocity at t and sits exactly one safe distance behind the leader's position
    at t. The position the law assigns is one step short, and the integrator's advance
    makes up that step.
   */
  lemma SafeDistanceKeepsSafeGap(cfg: Config, lead: CarMotion, offset: real, sqrt: real -> real, m: CarMotion, i: int)
    requires Runnable(cfg) && IsFollowerRun(cfg, lead, offset, sqrt, m)
    requires cfg.chosenModel == SAFE_DISTANCE
    requires 0 <= i < |m.times| - 1 && m.times[i] >= cfg.rxnTime
    ensures lead.times[i] == m.times[i]
    ensures m.instances[i + 1].velocity == lead.instances[i].velocity
    ensures m.instances[i + 1].position == lead.instances[i].position - SafeDistance(cfg, lead.instances[i].velocity)
  {
    hide ApplyLaw;
    var d := DelayTicks(cfg);
    SafeDistanceNeverAccelerates(cfg, lead, offset, sqrt, m, i);
    WarmUpByIndex(cfg, m, i);
    assert FollowsAt(cfg, lead, sqrt, m, i);
    ApplyLawSafeDistance(cfg, lead.instances[i - d], m.instances[i - d], lead.instances[i], m.instances[i], sqrt);
  }

  /**
    FIRST_ORDER: every tick either keeps acceleration and jerk, or sets a jerk that is
    exactly the change of acceleration over the step.
   */
  lemma FirstOrderJerkMatchesAcceleration(cfg: Config, lead: CarMotion, offset: real, sqrt: real -> real, m: CarMotion, i: int)
    requires Runnable(cfg) && IsFollowerRun(cfg, lead, offset, sqrt, m)
    requires cfg.chosenModel == FIRST_ORDER
    requires 0 <= i < |m.times| - 1
    ensures || (m.instances[i + 1].acceleration == m.instances[i].acceleration && m.instances[i + 1].jerk == m.instances[i].jerk)
            || m.instances[i + 1].acceleration == m.instances[i].acceleration + m.instances[i + 1].jerk * StepSeconds(cfg)
  {
    hide ApplyLaw;
    var d := DelayTicks(cfg);
    assert FollowsAt(cfg, lead, sqrt, m, i);
    if d <= i {
      ApplyLawFirstOrder(cfg, lead.instances[i - d], m.instances[i - d], lead.instances[i], m.instances[i], sqrt);
    }
  }
}

=== FILE: following_laws.dfy ===
/**
  The six car-following laws. Each law reads the leader's and the follower's own state one
  reaction time ago ("delayed"), and the follower's current state, and decides the
  follower's acceleration and jerk for the tick (SAFE_DISTANCE instead sets velocity and
  position directly). The integrator then advances the result.
 */
module FollowingLaws {
  import opened CarInstances
  import opened Parameters
  import opened Kinematics
  import opened Simulation

  /** Where the follower should be: one safe distance behind the delayed leader. */
  function SafePosition(cfg: Config, oldLead: CarInstance): real
    requires cfg.maxDecel != 0.0
  {
    oldLead.position - SafeDistance(cfg, oldLead.velocity)
  }

  /**
    SAFE_DISTANCE: the follower takes the leader's current velocity, and a position one safe
    distance and one step of travel behind the leader's current position. The integrator
    then adds that step of travel back, so with no acceleration the follower lands exactly
    one safe distance behind the leader.
   */
  function SafeDistanceLaw(cfg: Config, currentLead: CarInstance, s: CarInstance): (r: CarInstance)
    requires cfg.maxDecel != 0.0
    ensures r.velocity == currentLead.velocity
    ensures r.acceleration == s.acceleration && r.jerk == s.jerk
    ensures s.acceleration == 0.0 ==>
              && Advance(cfg, r).velocity == currentLead.velocity
              && Advance(cfg, r).position == currentLead.position - SafeDistance(cfg, currentLead.velocity)
  {
    var velocity := currentLead.velocity;
    s.(velocity := velocity, position := currentLead.position - SafeDistance(cfg, velocity) - velocity * StepSeconds(cfg))
  }

  /** PROPORTIONAL_ACCELERATION: proportional to the distance to the safe position, clamped to the bounds. */
  function ProportionalAcceleration(cfg: Config, safePosition: real, oldPosition: real): (r: real)
    ensures cfg.maxDecel <= cfg.maxAccel ==> cfg.maxDecel <= r <= cfg.maxAccel
  {
    var acceleration := cfg.lambda * (safePosition - oldPosition);
    if acceleration > cfg.maxAccel then cfg.maxAccel
    else if acceleration < cfg.maxDecel then cfg.maxDecel
    else acceleration
  }

  function Abs(x: real): real {
    if x < 0.0 then -x else x
  }

  /**
    The clamp is the nearest admissible acceleration: no value within the bounds is closer to
    the unclamped proportional response.
   */
  lemma ProportionalIsNearestAdmissible(cfg: Config, safePosition: real, oldPosition: real, x: real)
    requires cfg.maxDecel <= x <= cfg.maxAccel
    ensures var raw := cfg.lambda * (safePosition - oldPosition);
            Abs(ProportionalAcceleration(cfg, safePosition, oldPosition) - raw) <= Abs(x - raw)
  {
    var raw := cfg.lambda * (safePosition - oldPosition);
    var r := ProportionalAcceleration(cfg, safePosition, oldPosition);
    if raw > cfg.maxAccel {
      assert r == cfg.maxAccel;
    } else if raw < cfg.maxDecel {
      assert r == cfg.maxDecel;
    } else {
      assert r == raw;
    }
  }

  /** LINEAR_CAR_FOLLOWING: proportional to the delayed speed difference, with no clamp. */
  function LinearCarFollowing(cfg: Config, oldLeadVelocity: real, oldVelocity: real): real {
    cfg.lambda * (oldLeadVelocity - oldVelocity)
  }

  /**
    KEEPING_UP: full acceleration when behind the safe position, full deceleration when past
    it, nothing when exactly on it.
   */
  function KeepingUp(cfg: Config, safePosition: real, oldPosition: real): (r: real)
    ensures r == cfg.maxAccel || r == cfg.maxDecel || r == 0.0
    ensures cfg.maxDecel < 0.0 < cfg.maxAccel ==>
              && (r > 0.0 <==> safePosition > oldPosition)
              && (r < 0.0 <==> safePosition < oldPosition)
  {
    if safePosition > oldPosition then cfg.maxAccel
    else if safePosition < oldPosition then cfg.maxDecel
    else 0.0
  }

  /**
    LINEAR_PREDICION: when faster than the leader, brake fully once the braking distance to
    the leader's speed reaches the safe position; when slower, accelerate fully while behind
    the safe position; otherwise keep the previous acceleration. Equal speeds give 0.
   */
  function LinearPrediction(cfg: Config, safePosition: real, oldPosition: real,
                            oldLeadVelocity: real, oldVelocity: real, acceleration: real): (r: real)
    requires cfg.maxDecel != 0.0
    ensures oldVelocity == oldLeadVelocity ==> r == 0.0
    ensures oldVelocity > oldLeadVelocity ==> r == cfg.maxDecel || r == acceleration
    ensures oldVelocity < oldLeadVelocity ==> r == cfg.maxAccel || r == acceleration
    ensures oldVelocity < oldLeadVelocity && acceleration != cfg.maxAccel ==>
              (r == cfg.maxAccel <==> oldPosition < safePosition)
  {
    if oldVelocity > oldLeadVelocity then
      var brakingDist := LinearAccelerationDist(oldVelocity, oldLeadVelocity, cfg.maxDecel);
      if oldPosition >= safePosition - brakingDist then cfg.maxDecel else acceleration
    else if oldVelocity < oldLeadVelocity then
      if oldPosition < safePosition then cfg.maxAccel else acceleration
    else 0.0
  }

  /**
    The braking branch of LINEAR_PREDICION, stated through the kinematics rather than the
    formula: with `d` any distance over which braking at the bound takes the follower's
    delayed speed down to the leader's, the law brakes exactly when the follower would end
    at or beyond the safe position.
   */
  lemma LinearPredictionBrakesWithinReach(cfg: Config, safePosition: real, oldPosition: real,
                                          oldLeadVelocity: real, oldVelocity: real, acceleration: real, d: real)
    requires cfg.maxDecel != 0.0 && acceleration != cfg.maxDecel
    requires oldVelocity > oldLeadVelocity
    requires oldLeadVelocity * oldLeadVelocity == oldVelocity * oldVelocity + 2.0 * cfg.maxDecel * d
    ensures LinearPrediction(cfg, safePosition, oldPosition, oldLeadVelocity, oldVelocity, acceleration) == cfg.maxDecel
            <==> oldPosition + d >= safePosition
  {
    var brakingDist := LinearAccelerationDist(oldVelocity, oldLeadVelocity, cfg.maxDecel);
    assert 2.0 * cfg.maxDecel * brakingDist == 2.0 * cfg.maxDecel * d;
    assert brakingDist == d;
  }

  /** Scaling by a positive step keeps order. */
  lemma ScaleMonotone(x: real, y: real, t: real)
    requires t > 0.0
    ensures x <= y ==> x * t <= y * t
  {
    if x < y {
      PositiveProduct(y - x, t);
    }
  }

  /** A jerk of (bound - a) / t held for t takes acceleration a to the bound. */
  lemma StepReachesBound(a: real, bound: real, t: real)
    requires t > 0.0
    ensures a + (bound - a) / t * t == bound
  {
  }

  /**
    FIRST_ORDER braking ramp: hold at the deceleration bound, step onto it if the current
    jerk would pass it, otherwise decrease by the jerk bound for one step. The jerk always
    equals the change of acceleration over the step.
   */
  function BrakeRamp(cfg: Config, s: CarInstance): (r: CarInstance)
    requires cfg.timeStep > 0
    ensures r.position == s.position && r.velocity == s.velocity
    ensures r.acceleration == s.acceleration + r.jerk * StepSeconds(cfg)
    ensures r.acceleration == cfg.maxDecel || r.acceleration == s.acceleration - cfg.maxJerk * StepSeconds(cfg)
    ensures cfg.maxJerk >= 0.0 && s.acceleration >= cfg.maxDecel ==> r.acceleration <= s.acceleration
    ensures s.acceleration >= cfg.maxDecel && s.jerk <= -cfg.maxJerk ==> r.acceleration >= cfg.maxDecel
    ensures s.acceleration == cfg.maxDecel ==> r == s.(jerk := 0.0)
    ensures cfg.maxJerk >= 0.0 && s.acceleration >= cfg.maxDecel && s.jerk >= -cfg.maxJerk ==> -cfg.maxJerk <= r.jerk <= 0.0
  {
    var timeStep := StepSeconds(cfg);
    if s.acceleration == cfg.maxDecel then s.(jerk := 0.0)
    else if s.acceleration + s.jerk * timeStep < cfg.maxDecel then
      StepReachesBound(s.acceleration, cfg.maxDecel, timeStep);
      ScaleMonotone(-s.jerk, cfg.maxJerk, timeStep);
      ScaleMonotone((cfg.maxDecel - s.acceleration) / timeStep, -cfg.maxJerk, timeStep);
      ScaleMonotone((cfg.maxDecel - s.acceleration) / timeStep, 0.0, timeStep);
      s.(jerk := (cfg.maxDecel - s.acceleration) / timeStep, acceleration := cfg.maxDecel)
    else
      ScaleMonotone(0.0, cfg.maxJerk, timeStep);
      ScaleMonotone(s.jerk, -cfg.maxJerk, timeStep);
      var jerk := -cfg.maxJerk;
      s.(jerk := jerk, acceleration := s.acceleration + jerk * timeStep)
  }

  /** FIRST_ORDER acceleration ramp, the mirror image of BrakeRamp at the acceleration bound. */
  function AccelRamp(cfg: Config, s: CarInstance): (r: CarInstance)
    requires cfg.timeStep > 0
    ensures r.position == s.position && r.velocity == s.velocity
    ensures r.acceleration == s.acceleration + r.jerk * StepSeconds(cfg)
    ensures r.acceleration == cfg.maxAccel || r.acceleration == s.acceleration + cfg.maxJerk * StepSeconds(cfg)
    ensures cfg.maxJerk >= 0.0 && s.acceleration <= cfg.maxAccel ==> r.acceleration >= s.acceleration
    ensures s.acceleration <= cfg.maxAccel && s.jerk >= cfg.maxJerk ==> r.acceleration <= cfg.maxAccel
    ensures s.acceleration == cfg.maxAccel ==> r == s.(jerk := 0.0)
    ensures cfg.maxJerk >= 0.0 && s.acceleration <= cfg.maxAccel && s.jerk <= cfg.maxJerk ==> 0.0 <= r.jerk <= cfg.maxJerk
  {
    var timeStep := StepSeconds(cfg);
    if s.acceleration == cfg.maxAccel then s.(jerk := 0.0)
    else if s.acceleration + s.jerk * timeStep > cfg.maxAccel then
      StepReachesBound(s.acceleration, cfg.maxAccel, timeStep);
      ScaleMonotone(s.jerk, cfg.maxJerk, timeStep);
      ScaleMonotone(cfg.maxJerk, (cfg.maxAccel - s.acceleration) / timeStep, timeStep);
      ScaleMonotone(0.0, (cfg.maxAccel - s.acceleration) / timeStep, timeStep);
      s.(jerk := (cfg.maxAccel - s.acceleration) / timeStep, acceleration := cfg.maxAccel)
    else
      ScaleMonotone(0.0, cfg.maxJerk, timeStep);
      ScaleMonotone(cfg.maxJerk, s.jerk, timeStep);
      var jerk := cfg.maxJerk;
      s.(jerk := jerk, acceleration := s.acceleration + jerk * timeStep)
  }

  /** The leader's velocity one reaction time after its delayed sample, extrapolated at constant jerk. */
  function PredictedLeadVelocity(cfg: Config, oldLead: CarInstance): real {
    var rxnTime := ReactionSeconds(cfg);
    oldLead.jerk * rxnTime * rxnTime / 2.0 + oldLead.acceleration * rxnTime + oldLead.velocity
  }

  /** What FIRST_ORDER decides to do with the acceleration this tick. */
  datatype Response = Brake | Hold | Accelerate

  /**
    FIRST_ORDER's decision: brake whenever the safe distance at the predicted leader speed
    covers the delayed gap; when the leader is slower, brake also when that safe distance
    plus the constant-jerk braking distance covers it, and otherwise hold; with the leader
    no slower, accelerate. When the braking distance is undefined (Java's NaN) the
    comparison fails and the response is to hold.
   */
  function FirstOrderResponse(cfg: Config, oldLead: CarInstance, oldOwn: CarInstance, sqrt: real -> real): (r: Response)
    requires cfg.maxDecel != 0.0
    ensures SafeDistance(cfg, PredictedLeadVelocity(cfg, oldLead)) >= oldLead.position - oldOwn.position ==> r == Brake
    ensures r == Accelerate <==>
              && SafeDistance(cfg, PredictedLeadVelocity(cfg, oldLead)) < oldLead.position - oldOwn.position
              && oldLead.velocity >= oldOwn.velocity
    ensures r == Hold ==> oldLead.velocity < oldOwn.velocity
    ensures var bd := FirstOrderDist(oldOwn.velocity, oldLead.velocity, oldOwn.acceleration, -cfg.maxJerk, sqrt);
            && oldLead.velocity < oldOwn.velocity
            && SafeDistance(cfg, PredictedLeadVelocity(cfg, oldLead)) < oldLead.position - oldOwn.position
            && bd.None?
            ==> r == Hold
    ensures var bd := FirstOrderDist(oldOwn.velocity, oldLead.velocity, oldOwn.acceleration, -cfg.maxJerk, sqrt);
            var sd := SafeDistance(cfg, PredictedLeadVelocity(cfg, oldLead));
            oldLead.velocity < oldOwn.velocity && bd.Some? ==>
              (r == Brake <==> sd >= oldLead.position - oldOwn.position || sd + bd.value >= oldLead.position - oldOwn.position)
  {
    var expectedSafeDist := SafeDistance(cfg, PredictedLeadVelocity(cfg, oldLead));
    var gap := oldLead.position - oldOwn.position;
    if expectedSafeDist >= gap then Brake
    else if oldLead.velocity < oldOwn.velocity then
      match FirstOrderDist(oldOwn.velocity, oldLead.velocity, oldOwn.acceleration, -cfg.maxJerk, sqrt)
      case None => Hold
      case Some(expectedBrakingDist) =>
        if expectedSafeDist + expectedBrakingDist >= gap then Brake else Hold
    else Accelerate
  }

  /**
    What FIRST_ORDER's ramp promises for each decision. A hold keeps the state. A brake holds
    at the deceleration bound with jerk 0; otherwise it lands on the bound or drops by the
    jerk bound for one step, never raises an admissible acceleration, and never needs a jerk
    beyond the bound. An acceleration mirrors this at the acceleration bound.
   */
  predicate RampsAsDecided(cfg: Config, response: Response, s: CarInstance, r: CarInstance) {
    && (response == Hold ==> r == s)
    && (response == Brake ==>
          && (r.acceleration == cfg.maxDecel || r.acceleration == s.acceleration - cfg.maxJerk * StepSeconds(cfg))
          && (cfg.maxJerk >= 0.0 && s.acceleration >= cfg.maxDecel ==> r.acceleration <= s.acceleration)
          && (s.acceleration == cfg.maxDecel ==> r == s.(jerk := 0.0))
          && (cfg.maxJerk >= 0.0 && s.acceleration >= cfg.maxDecel && s.jerk >= -cfg.maxJerk ==> -cfg.maxJerk <= r.jerk <= 0.0))
    && (response == Accelerate ==>
          && (r.acceleration == cfg.maxAccel || r.acceleration == s.acceleration + cfg.maxJerk * StepSeconds(cfg))
          && (cfg.maxJerk >= 0.0 && s.acceleration <= cfg.maxAccel ==> r.acceleration >= s.acceleration)
          && (s.acceleration == cfg.maxAccel ==> r == s.(jerk := 0.0))
          && (cfg.maxJerk >= 0.0 && s.acceleration <= cfg.maxAccel && s.jerk <= cfg.maxJerk ==> 0.0 <= r.jerk <= cfg.maxJerk))
  }

  /**
    The ramp FIRST_ORDER takes for a given decision. Either acceleration and jerk are held,
    or the new jerk is exactly the change of acceleration over the step.
   */
  function FirstOrderRamp(cfg: Config, response: Response, s: CarInstance): (r: CarInstance)
    requires cfg.timeStep > 0
    ensures r.position == s.position && r.velocity == s.velocity
    ensures r == s || r.acceleration == s.acceleration + r.jerk * StepSeconds(cfg)
    ensures RampsAsDecided(cfg, response, s, r)
  {
    hide BrakeRamp, AccelRamp;
    match response
    case Brake => BrakeRamp(cfg, s)
    case Hold => s
    case Accelerate => AccelRamp(cfg, s)
  }

  /**
    FIRST_ORDER: ramp the acceleration down or up as decided, or keep acceleration and jerk.
    Either both are held, or the new jerk is exactly the change of acceleration over the step,
    and the ramp follows the decision as RampsAsDecided describes.
   */
  function FirstOrder(cfg: Config, oldLead: CarInstance, oldOwn: CarInstance, s: CarInstance,
                      sqrt: real -> real): (r: CarInstance)
    requires cfg.timeStep > 0 && cfg.maxDecel != 0.0
    ensures r.position == s.position && r.velocity == s.velocity
    ensures r == s || r.acceleration == s.acceleration + r.jerk * StepSeconds(cfg)
    ensures RampsAsDecided(cfg, FirstOrderResponse(cfg, oldLead, oldOwn, sqrt), s, r)
  {
    hide FirstOrderResponse, FirstOrderRamp, RampsAsDecided, BrakeRamp, AccelRamp;
    FirstOrderRamp(cfg, FirstOrderResponse(cfg, oldLead, oldOwn, sqrt), s)
  }

  /**
    With a positive jerk bound the braking distance FIRST_ORDER asks for is always defined,
    so the NaN path is never taken.
   */
  lemma FirstOrderBrakingDistanceDefined(cfg: Config, oldLead: CarInstance, oldOwn: CarInstance, sqrt: real -> real)
    requires cfg.maxJerk > 0.0 && oldLead.velocity < oldOwn.velocity
    ensures FirstOrderDist(oldOwn.velocity, oldLead.velocity, oldOwn.acceleration, -cfg.maxJerk, sqrt).Some?
  {
    PositiveProduct(cfg.maxJerk, oldOwn.velocity - oldLead.velocity);
  }

  /**
    The chosen law applied to the follower's current state `s`. Only SAFE_DISTANCE reads the
    leader's current sample and moves velocity and position; only FIRST_ORDER sets the jerk.
   */
  function ApplyLaw(cfg: Config, oldLead: CarInstance, oldOwn: CarInstance, currentLead: CarInstance,
                    s: CarInstance, sqrt: real -> real): (r: CarInstance)
    requires cfg.timeStep > 0 && cfg.maxDecel != 0.0
    ensures cfg.chosenModel != SAFE_DISTANCE ==> r.position == s.position && r.velocity == s.velocity
    ensures cfg.chosenModel != FIRST_ORDER ==> r.jerk == s.jerk
  {
    var safePosition := SafePosition(cfg, oldLead);
    match cfg.chosenModel
    case SAFE_DISTANCE => SafeDistanceLaw(cfg, currentLead, s)
    case PROPORTIONAL_ACCELERATION =>
      s.(acceleration := ProportionalAcceleration(cfg, safePosition, oldOwn.position))
    case LINEAR_CAR_FOLLOWING =>
      s.(acceleration := LinearCarFollowing(cfg, oldLead.velocity, oldOwn.velocity))
    case KEEPING_UP =>
      s.(acceleration := KeepingUp(cfg, safePosition, oldOwn.position))
    case LINEAR_PREDICION =>
      s.(acceleration := LinearPrediction(cfg, safePosition, oldOwn.position, oldLead.velocity, oldOwn.velocity, s.acceleration))
    case FIRST_ORDER => FirstOrder(cfg, oldLead, oldOwn, s, sqrt)
  }

  /** A tick inside the reaction window: the jerk is carried and integrated into the acceleration. */
  function WarmUpTick(cfg: Config, s: CarInstance): CarInstance {
    Advance(cfg, s.(acceleration := s.acceleration + s.jerk * StepSeconds(cfg)))
  }

  /** A tick after the reaction window: the law, then the integrator. */
  function ActiveTick(cfg: Config, oldLead: CarInstance, oldOwn: CarInstance, currentLead: CarInstance,
                      s: CarInstance, sqrt: real -> real): CarInstance
    requires cfg.timeStep > 0 && cfg.maxDecel != 0.0
  {
    Advance(cfg, ApplyLaw(cfg, oldLead, oldOwn, currentLead, s, sqrt))
  }

  /**
    SAFE_DISTANCE keeps the acceleration and takes the leader's current velocity; from rest
    the integrated result is exactly one safe distance behind the leader.
   */
  lemma ApplyLawSafeDistance(cfg: Config, oldLead: CarInstance, oldOwn: CarInstance, currentLead: CarInstance,
                             s: CarInstance, sqrt: real -> real)
    requires cfg.timeStep > 0 && cfg.maxDecel != 0.0
    requires cfg.chosenModel == SAFE_DISTANCE
    ensures var r := ApplyLaw(cfg, oldLead, oldOwn, currentLead, s, sqrt);
            r.acceleration == s.acceleration && r.velocity == currentLead.velocity
    ensures s.acceleration == 0.0 ==>
              var r := Advance(cfg, ApplyLaw(cfg, oldLead, oldOwn, currentLead, s, sqrt));
              && r.velocity == currentLead.velocity
              && r.position == currentLead.position - SafeDistance(cfg, currentLead.velocity)
  {
    hide FirstOrder, LinearPrediction, KeepingUp, ProportionalAcceleration;
  }

  /** FIRST_ORDER either holds acceleration and jerk or sets a jerk matching the change of acceleration. */
  lemma ApplyLawFirstOrder(cfg: Config, oldLead: CarInstance, oldOwn: CarInstance, currentLead: CarInstance,
                           s: CarInstance, sqrt: real -> real)
    requires cfg.timeStep > 0 && cfg.maxDecel != 0.0
    requires cfg.chosenModel == FIRST_ORDER
    ensures var r := ApplyLaw(cfg, oldLead, oldOwn, currentLead, s, sqrt);
            r == s || r.acceleration == s.acceleration + r.jerk * StepSeconds(cfg)
  {
    hide LinearPrediction, KeepingUp, ProportionalAcceleration, SafeDistanceLaw, FirstOrderResponse, FirstOrderRamp, BrakeRamp, AccelRamp;
  }

  /** PROPORTIONAL_ACCELERATION keeps the acceleration within the bounds. */
  lemma ApplyLawProportional(cfg: Config, oldLead: CarInstance, oldOwn: CarInstance, currentLead: CarInstance,
                             s: CarInstance, sqrt: real -> real)
    requires cfg.timeStep > 0 && cfg.maxDecel != 0.0
    requires cfg.chosenModel == PROPORTIONAL_ACCELERATION && cfg.maxDecel <= cfg.maxAccel
    ensures cfg.maxDecel <= ApplyLaw(cfg, oldLead, oldOwn, currentLead, s, sqrt).acceleration <= cfg.maxAccel
  {
    hide FirstOrder, LinearPrediction, KeepingUp, SafeDistanceLaw;
  }

  /** LINEAR_CAR_FOLLOWING sets the acceleration to lambda times the delayed speed difference. */
  lemma ApplyLawLinearCarFollowing(cfg: Config, oldLead: CarInstance, oldOwn: CarInstance, currentLead: CarInstance,
                                   s: CarInstance, sqrt: real -> real)
    requires cfg.timeStep > 0 && cfg.maxDecel != 0.0
    requires cfg.chosenModel == LINEAR_CAR_FOLLOWING
    ensures ApplyLaw(cfg, oldLead, oldOwn, currentLead, s, sqrt).acceleration == cfg.lambda * (oldLead.velocity - oldOwn.velocity)
  {
    hide FirstOrder, LinearPrediction, KeepingUp, ProportionalAcceleration, SafeDistanceLaw;
  }

  /** KEEPING_UP picks one of the three accelerations. */
  lemma ApplyLawKeepingUp(cfg: Config, oldLead: CarInstance, oldOwn: CarInstance, currentLead: CarInstance,
                          s: CarInstance, sqrt: real -> real)
    requires cfg.timeStep > 0 && cfg.maxDecel != 0.0
    requires cfg.chosenModel == KEEPING_UP
    ensures var a := ApplyLaw(cfg, oldLead, oldOwn, currentLead, s, sqrt).acceleration;
            a == cfg.maxAccel || a == cfg.maxDecel || a == 0.0
  {
    hide FirstOrder, LinearPrediction, ProportionalAcceleration, SafeDistanceLaw;
  }

  /** LINEAR_PREDICION picks one of the three accelerations or keeps the current one. */
  lemma ApplyLawLinearPrediction(cfg: Config, oldLead: CarInstance, oldOwn: CarInstance, currentLead: CarInstance,
                                 s: CarInstance, sqrt: real -> real)
    requires cfg.timeStep > 0 && cfg.maxDecel != 0.0
    requires cfg.chosenModel == LINEAR_PREDICION
    ensures var a := ApplyLaw(cfg, oldLead, oldOwn, currentLead, s, sqrt).acceleration;
            a == cfg.maxAccel || a == cfg.maxDecel || a == 0.0 || a == s.acceleration
  {
    hide FirstOrder, KeepingUp, ProportionalAcceleration, SafeDistanceLaw;
  }
}

=== FILE: kinematics.dfy ===
/**
  The closed-form kinematic helpers of the traffic model: the safe following distance, the
  distance to change speed under constant acceleration, and the distance to change speed
  under constant jerk.
 */
module Kinematics {
  import opened Parameters

  datatype Option<T> = None | Some(value: T)

  /**
    The gap to keep behind a car travelling at `v`: one vehicle length, plus the distance
    covered during the reaction time, plus the braking distance at the (negative) maximum
    deceleration.
   */
  function SafeDistance(cfg: Config, v: real): (r: real)
    requires cfg.maxDecel != 0.0
    ensures cfg.maxDecel < 0.0 && cfg.rxnTime >= 0 && v >= 0.0 ==> r >= cfg.vehicleLength
  {
    cfg.vehicleLength + v * cfg.rxnTime as real / 1000.0 - v * v / (2.0 * cfg.maxDecel)
  }

  lemma PositiveProduct(x: real, y: real)
    requires x > 0.0 && y > 0.0
    ensures x * y > 0.0
  {
  }

  lemma SquareStrictlyMonotone(v: real, w: real)
    requires 0.0 <= v < w
    ensures v * v < w * w
  {
    PositiveProduct(w - v, w + v);
    assert w * w - v * v == (w - v) * (w + v);
  }

  /** With a braking (negative) deceleration bound the safe distance grows strictly with speed. */
  lemma SafeDistanceStrictlyIncreasing(cfg: Config, v: real, w: real)
    requires cfg.maxDecel < 0.0 && cfg.rxnTime >= 0
    requires 0.0 <= v < w
    ensures SafeDistance(cfg, v) < SafeDistance(cfg, w)
  {
    var k := -1.0 / (2.0 * cfg.maxDecel);
    assert k > 0.0;
    SquareStrictlyMonotone(v, w);
    assert - v * v / (2.0 * cfg.maxDecel) == k * (v * v);
    assert - w * w / (2.0 * cfg.maxDecel) == k * (w * w);
    assert k * (v * v) < k * (w * w);
    assert v * cfg.rxnTime as real <= w * cfg.rxnTime as real;
  }

  /**
    Distance covered while the speed changes from `startSpeed` to `endSpeed` under constant
    `acceleration`: the result satisfies endSpeed^2 = startSpeed^2 + 2 * acceleration * distance.
   */
  function LinearAccelerationDist(startSpeed: real, endSpeed: real, acceleration: real): (r: real)
    requires acceleration != 0.0
    ensures endSpeed * endSpeed == startSpeed * startSpeed + 2.0 * acceleration * r
  {
    (endSpeed * endSpeed - startSpeed * startSpeed) / (2.0 * acceleration)
  }

  /** Braking from a higher to a lower non-negative speed takes a positive distance. */
  lemma BrakingDistanceIsPositive(startSpeed: real, endSpeed: real, acceleration: real)
    requires acceleration < 0.0 && 0.0 <= endSpeed < startSpeed
    ensures LinearAccelerationDist(startSpeed, endSpeed, acceleration) > 0.0
  {
    var d := LinearAccelerationDist(startSpeed, endSpeed, acceleration);
    SquareStrictlyMonotone(endSpeed, startSpeed);
    assert 2.0 * acceleration * d < 0.0;
  }

  /** The discriminant of the constant-jerk speed equation. */
  function Discriminant(u: real, v: real, a: real, jerk: real): real {
    a * a - 2.0 * jerk * (u - v)
  }

  /**
    The time to go from speed `u` and acceleration `a` to speed `v` under constant `jerk`,
    given `root`, the square root of the discriminant.
   */
  function FirstOrderTime(a: real, jerk: real, root: real): real
    requires jerk != 0.0
  {
    (-a - root) / jerk
  }

  /**
    Distance covered while the speed changes from `u` to `v` under constant `jerk` from
    acceleration `a`. `sqrt` stands for the platform's square root. Where the Java
    arithmetic produces NaN (a negative discriminant, or a zero jerk dividing) the result is
    None.
   */
  function FirstOrderDist(u: real, v: real, a: real, jerk: real, sqrt: real -> real): (r: Option<real>)
    ensures r.None? <==> jerk == 0.0 || Discriminant(u, v, a, jerk) < 0.0
  {
    var disc := Discriminant(u, v, a, jerk);
    if jerk == 0.0 || disc < 0.0 then None
    else
      var t := FirstOrderTime(a, jerk, sqrt(disc));
      Some(jerk * t * t * t / 6.0 + a * t * t / 2.0 + u * t)
  }

  /**
    When `root` is the non-negative square root of the discriminant, the chosen time solves
    the constant-jerk speed equation u + a*t + jerk*t^2/2 = v.
   */
  lemma FirstOrderTimeReachesTargetSpeed(u: real, v: real, a: real, jerk: real, root: real)
    requires jerk != 0.0
    requires root >= 0.0 && root * root == Discriminant(u, v, a, jerk)
    ensures var t := FirstOrderTime(a, jerk, root);
            u + a * t + jerk * t * t / 2.0 == v
  {
    var t := FirstOrderTime(a, jerk, root);
    assert jerk * t == -a - root;
    assert jerk * t * t / 2.0 == (a + root) * (a + root) / (2.0 * jerk) by {
      assert jerk * t * t == (jerk * t) * t;
    }
    assert a * t == -a * (a + root) / jerk;
    assert (a + root) * (a + root) - 2.0 * a * (a + root) == root * root - a * a;
  }

  /**
    Braking (negative jerk) towards a lower speed: the discriminant is positive, so the
    distance is defined, and the chosen time lies strictly in the future.
   */
  lemma FirstOrderBrakingTimeIsPositive(u: real, v: real, a: real, jerk: real, root: real)
    requires jerk < 0.0 && u > v
    requires root >= 0.0 && root * root == Discriminant(u, v, a, jerk)
    ensures Discriminant(u, v, a, jerk) > a * a
    ensures FirstOrderTime(a, jerk, root) > 0.0
  {
    assert -2.0 * jerk * (u - v) > 0.0;
    assert -a - root < 0.0;
  }
}

=== FILE: lead_car.dfy ===
/**
  The lead car: a scripted motion that depends on no other car. Each tick picks an
  acceleration and a jerk from the chosen scenario, integrates, advances the time by one
  step and appends the new sample.
 */
module LeadCar {
  import opened CarInstances
  import opened CarMotions
  import opened Parameters
  import opened Simulation

  /** The lead car at time 0: 50 m, 10 m/s, no acceleration, no jerk. */
  const LeadStart: CarInstance := CarInstance(50.0, 10.0, 0.0, 0.0)

  /** QUICK_ACCELERATION: 2.3 m/s^2 from 5 s to 8 s, then -0.5 m/s^2 until 10 s, else 0. */
  function QuickAcceleration(time: int): real {
    if time < 5000 then 0.0
    else if time < 8000 then 2.3
    else if time < 10000 then -0.5
    else 0.0
  }

  /** SMOOTH_ACCELERATION: the jerk picked at `time` from the current acceleration. */
  function SmoothJerk(time: int, acceleration: real): real {
    if time < 1000 || time > 5000 then 0.1
    else if time < 3000 then acceleration * (1.0 - acceleration)
    else -acceleration * (1.0 - acceleration)
  }

  /** The acceleration and jerk the scenario chooses for the tick at `time`. */
  function Scenario(cfg: Config, s: CarInstance, time: int): (r: CarInstance)
    ensures r.position == s.position && r.velocity == s.velocity
    ensures cfg.currentCase != SMOOTH_ACCELERATION ==> r.jerk == 0.0
    ensures cfg.currentCase == SMOOTH_ACCELERATION ==> r.acceleration == s.acceleration + r.jerk * StepSeconds(cfg)
  {
    match cfg.currentCase
    case CONSTANT_VELOCITY => s.(acceleration := 0.0, jerk := 0.0)
    case QUICK_ACCELERATION => s.(acceleration := QuickAcceleration(time), jerk := 0.0)
    case SMOOTH_ACCELERATION =>
      var jerk := SmoothJerk(time, s.acceleration);
      s.(acceleration := s.acceleration + jerk * StepSeconds(cfg), jerk := jerk)
  }

  /** One tick of the lead car: scenario, then integration. */
  function LeadTick(cfg: Config, s: CarInstance, time: int): CarInstance {
    Advance(cfg, Scenario(cfg, s, time))
  }

  /** A complete lead-car trajectory: on the tick grid, starting at LeadStart, one tick per sample. */
  ghost predicate IsLeadRun(cfg: Config, m: CarMotion) {
    && TickGrid(cfg, m)
    && m.instances[0] == LeadStart
    && forall i :: 0 <= i < |m.times| - 1 ==> m.instances[i + 1] == LeadTick(cfg, m.instances[i], m.times[i])
  }

  /** A lead trajectory under construction: every stored tick follows from the one before. */
  ghost predicate IsLeadPrefix(cfg: Config, m: CarMotion) {
    && OnGrid(m, cfg.timeStep)
    && m.instances[0] == LeadStart
    && (forall i :: 0 <= i < |m.times| - 1 ==> m.times[i] < cfg.runTime)
    && forall i :: 0 <= i < |m.times| - 1 ==> m.instances[i + 1] == LeadTick(cfg, m.instances[i], m.times[i])
  }

  lemma LeadPrefixExtends(cfg: Config, m: CarMotion, time: int)
    requires IsLeadPrefix(cfg, m)
    requires time == (|m.times| - 1) * cfg.timeStep && time < cfg.runTime
    ensures IsLeadPrefix(cfg, m.AppendInstance(LeadTick(cfg, m.instances[|m.times| - 1], time), time + cfg.timeStep))
  {
    GridExtends(m, LeadTick(cfg, m.instances[|m.times| - 1], time), time + cfg.timeStep, cfg.timeStep);
  }

  method GenerateLeadCar(cfg: Config) returns (leadCar: CarMotion)
    requires cfg.timeStep > 0
    ensures IsLeadRun(cfg, leadCar)
  {
    var time := 0;
    var s := LeadStart;
    leadCar := Empty().AppendInstance(s, time);
    while time < cfg.runTime
      invariant IsLeadPrefix(cfg, leadCar)
      invariant time == (|leadCar.times| - 1) * cfg.timeStep
      invariant s == leadCar.instances[|leadCar.times| - 1]
      decreases cfg.runTime - time
    {
      LeadPrefixExtends(cfg, leadCar, time);
      var chosen := Scenario(cfg, s, time);
      s := Advance(cfg, chosen);
      time := time + cfg.timeStep;
      leadCar := leadCar.AppendInstance(s, time);
    }
  }

  /**
    Every tick of a lead run integrates in the fixed order: the new velocity takes the new
    acceleration, the new position takes the new velocity, and the time moves on one step.
   */
  lemma LeadTickOrder(cfg: Config, m: CarMotion, i: int)
    requires IsLeadRun(cfg, m)
    requires 0 <= i < |m.times| - 1
    ensures m.times[i + 1] == m.times[i] + cfg.timeStep
    ensures m.instances[i + 1].velocity == m.instances[i].velocity + m.instances[i + 1].acceleration * StepSeconds(cfg)
    ensures m.instances[i + 1].position == m.instances[i].position + m.instances[i + 1].velocity * StepSeconds(cfg)
  {
  }

  /**
    QUICK_ACCELERATION: every sample has jerk 0, and the sample after time t carries
    acceleration 0 before 5 s, 2.3 until 8 s, -0.5 until 10 s and 0 after.
   */
  lemma QuickAccelerationProfile(cfg: Config, m: CarMotion, i: int)
    requires IsLeadRun(cfg, m) && cfg.currentCase == QUICK_ACCELERATION
    requires 0 <= i < |m.times| - 1
    ensures m.instances[i].jerk == 0.0 && m.instances[i + 1].jerk == 0.0
    ensures m.times[i] < 5000 ==> m.instances[i + 1].acceleration == 0.0
    ensures 5000 <= m.times[i] < 8000 ==> m.instances[i + 1].acceleration == 2.3
    ensures 8000 <= m.times[i] < 10000 ==> m.instances[i + 1].acceleration == -0.5
    ensures 10000 <= m.times[i] ==> m.instances[i + 1].acceleration == 0.0
  {
    if i > 0 {
      assert m.instances[i] == LeadTick(cfg, m.instances[i - 1], m.times[i - 1]);
    }
  }

  /**
    CONSTANT_VELOCITY: the lead car keeps 10 m/s with no acceleration or jerk, and its
    position grows linearly, 10 m/s times the elapsed seconds.
   */
  lemma {:induction false} ConstantVelocityLead(cfg: Config, m: CarMotion, i: int)
    requires IsLeadRun(cfg, m) && cfg.currentCase == CONSTANT_VELOCITY
    requires 0 <= i < |m.times|
    ensures m.instances[i] == CarInstance(50.0 + 10.0 * (i as real) * StepSeconds(cfg), 10.0, 0.0, 0.0)
  {
    if i > 0 {
      ConstantVelocityLead(cfg, m, i - 1);
      assert m.instances[i] == LeadTick(cfg, m.instances[i - 1], m.times[i - 1]);
    }
  }

  /**
    SMOOTH_ACCELERATION: each tick adds jerk times the step to the acceleration. The jerk is
    0.1 outside the 1 s to 5 s window, a*(1-a) from 1 s to 3 s and -a*(1-a) from 3 s to 5 s,
    where a is the acceleration of the sample before.
   */
  lemma SmoothAccelerationIntegratesJerk(cfg: Config, m: CarMotion, i: int)
    requires IsLeadRun(cfg, m) && cfg.currentCase == SMOOTH_ACCELERATION
    requires 0 <= i < |m.times| - 1
    ensures m.instances[i + 1].acceleration == m.instances[i].acceleration + m.instances[i + 1].jerk * StepSeconds(cfg)
    ensures m.times[i] < 1000 || m.times[i] > 5000 ==> m.instances[i + 1].jerk == 0.1
    ensures 1000 <= m.times[i] < 3000 ==>
              m.instances[i + 1].jerk == m.instances[i].acceleration * (1.0 - m.instances[i].acceleration)
    ensures 3000 <= m.times[i] <= 5000 ==>
              m.instances[i + 1].jerk == -m.instances[i].acceleration * (1.0 - m.instances[i].acceleration)
  {
    assert m.instances[i + 1] == LeadTick(cfg, m.instances[i], m.times[i]);
  }

  /**
    With the program's own parameters (QUICK_ACCELERATION, 10 ms steps) the lead car's
    speed, sample by sample: 10 m/s up to 5 s, rising by 0.023 m/s per step to 16.9 m/s at
    8 s, falling by 0.005 m/s per step to 15.9 m/s at 10 s, and 15.9 m/s from then on.
   */
  lemma {:induction false} DefaultLeadVelocity(m: CarMotion, k: int)
    requires IsLeadRun(Default, m)
    requires 0 <= k < |m.times|
    ensures k <= 500 ==> m.instances[k].velocity == 10.0
    ensures 500 <= k <= 800 ==> m.instances[k].velocity == 10.0 + 0.023 * (k - 500) as real
    ensures 800 <= k <= 1000 ==> m.instances[k].velocity == 16.9 - 0.005 * (k - 800) as real
    ensures 1000 <= k ==> m.instances[k].velocity == 15.9
  {
    if k > 0 {
      DefaultLeadVelocity(m, k - 1);
      QuickAccelerationProfile(Default, m, k - 1);
      LeadTickOrder(Default, m, k - 1);
      assert m.times[k - 1] == (k - 1) * 10;
    }
  }
}

=== FILE: parameters.dfy ===
/**
  The run parameters of the traffic model. The Java program holds them as static final
  constants; here they are one immutable configuration value handed to every generator and
  law, with `Default` holding the program's own values.
 */
module Parameters {

  /** The scripted motion of the lead car. */
  datatype Case = CONSTANT_VELOCITY | QUICK_ACCELERATION | SMOOTH_ACCELERATION

  /** The car-following law of the following cars (the Java spelling is kept). */
  datatype Model =
    | SAFE_DISTANCE
    | PROPORTIONAL_ACCELERATION
    | LINEAR_CAR_FOLLOWING
    | KEEPING_UP
    | LINEAR_PREDICION
    | FIRST_ORDER

  /**
    Lengths in meters, times in milliseconds, accelerations in m/s^2, jerk in m/s^3.
    `lambda` is the constant of proportionality of the proportional laws.
   */
  datatype Config = Config(
    vehicleLength: real,
    timeStep: int,
    runTime: int,
    rxnTime: int,
    maxDecel: real,
    maxAccel: real,
    maxJerk: real,
    lambda: real,
    currentCase: Case,
    chosenModel: Model)

  const Default: Config := Config(5.0, 10, 100000, 2000, -2.0, 2.0, 1.0, 0.1, QUICK_ACCELERATION, LINEAR_CAR_FOLLOWING)

  /** The step size in seconds, as the generators convert it before integrating. */
  function StepSeconds(cfg: Config): real {
    cfg.timeStep as real / 1000.0
  }

  /** The reaction time in seconds. */
  function ReactionSeconds(cfg: Config): real {
    cfg.rxnTime as real / 1000.0
  }

  /** The reaction time counted in ticks. */
  function DelayTicks(cfg: Config): int
    requires cfg.timeStep > 0
  {
    cfg.rxnTime / cfg.timeStep
  }

  /**
    What a run needs of its parameters: a positive step (otherwise the loops never end), a
    reaction time that is a non-negative multiple of the step (otherwise a delayed lookup asks
    for a time that was never stored), and a non-zero deceleration bound, which the safe
    distance and the braking distance divide by.
   */
  predicate Runnable(cfg: Config) {
    && cfg.timeStep > 0
    && cfg.rxnTime >= 0
    && cfg.rxnTime % cfg.timeStep == 0
    && cfg.maxDecel != 0.0
  }
}

=== FILE: simulation.dfy ===
/**
  What both generators share: the per-tick integrator and the grid of sample times a
  finished trajectory lies on.
 */
module Simulation {
  import opened CarInstances
  import opened CarMotions
  import opened Parameters

  /**
    One integration step, in the fixed order of the generators: the velocity takes the
    acceleration already chosen for the tick, then the position takes the updated velocity
    (semi-implicit Euler). Acceleration and jerk are carried unchanged.
   */
  function Advance(cfg: Config, s: CarInstance): CarInstance {
    var velocity := s.velocity + s.acceleration * StepSeconds(cfg);
    s.(velocity := velocity, position := s.position + velocity * StepSeconds(cfg))
  }

  /**
    `next` is one integration step from `prev` once the tick's acceleration and jerk are
    chosen in `chosen`, which keeps `prev`'s position and velocity.
   */
  lemma AdvanceFrom(cfg: Config, prev: CarInstance, chosen: CarInstance, next: CarInstance)
    requires chosen.position == prev.position && chosen.velocity == prev.velocity
    requires next == Advance(cfg, chosen)
    ensures next.acceleration == chosen.acceleration && next.jerk == chosen.jerk
    ensures next.velocity == prev.velocity + next.acceleration * StepSeconds(cfg)
    ensures next.position == prev.position + next.velocity * StepSeconds(cfg)
  {
  }

  /** A valid store, not empty, whose i-th time is i steps. */
  ghost predicate OnGrid(m: CarMotion, step: int) {
    && m.Valid()
    && |m.times| >= 1
    && forall i :: 0 <= i < |m.times| ==> m.times[i] == i * step
  }

  /**
    A finished run: one sample per time 0, step, 2*step, ... up to the first multiple of the
    step that reaches the run time, which is where the generator loops stop.
   */
  ghost predicate TickGrid(cfg: Config, m: CarMotion) {
    && OnGrid(m, cfg.timeStep)
    && m.times[|m.times| - 1] >= cfg.runTime
    && forall i :: 0 <= i < |m.times| - 1 ==> m.times[i] < cfg.runTime
  }

  lemma MulStrictlyMonotone(a: int, b: int, c: int)
    requires a < b && c > 0
    ensures a * c < b * c
  {
    assert b * c - a * c == (b - a) * c;
  }

  lemma MulMonotone(a: int, b: int, c: int)
    requires a <= b && c >= 0
    ensures a * c <= b * c
  {
    assert b * c - a * c == (b - a) * c;
  }

  /** Appending the next grid time keeps a store on the grid. */
  lemma GridExtends(m: CarMotion, instance: CarInstance, time: int, step: int)
    requires OnGrid(m, step) && time == |m.times| * step
    ensures OnGrid(m.AppendInstance(instance, time), step)
  {
  }

  /** With a positive step the grid times are strictly increasing. */
  lemma GridIsIncreasing(m: CarMotion, step: int)
    requires OnGrid(m, step) && step > 0
    ensures StrictlyIncreasing(m.times)
  {
    forall i, j | 0 <= i < j < |m.times|
      ensures m.times[i] < m.times[j]
    {
      MulStrictlyMonotone(i, j, step);
    }
  }

  /**
    When the step divides the run time, a finished run holds exactly runTime/step + 1
    samples, the last one at the run time itself.
   */
  lemma SampleCount(cfg: Config, m: CarMotion)
    requires cfg.timeStep > 0 && cfg.runTime >= 0 && cfg.runTime % cfg.timeStep == 0
    requires TickGrid(cfg, m)
    ensures |m.times| == cfg.runTime / cfg.timeStep + 1
    ensures m.times[|m.times| - 1] == cfg.runTime
  {
    var n := |m.times| - 1;
    var k := cfg.runTime / cfg.timeStep;
    assert cfg.runTime == k * cfg.timeStep;
    if n < k {
      MulStrictlyMonotone(n, k, cfg.timeStep);
      assert false;
    } else if n > k {
      assert m.times[n - 1] < cfg.runTime;
      MulMonotone(k, n - 1, cfg.timeStep);
      assert false;
    }
  }

  /** Two finished runs of the same parameters have the same sample times. */
  lemma GridLengthIsDetermined(cfg: Config, a: CarMotion, b: CarMotion)
    requires cfg.timeStep > 0
    requires TickGrid(cfg, a) && TickGrid(cfg, b)
    ensures |a.times| == |b.times|
    ensures a.times == b.times
  {
    if |a.times| < |b.times| {
      assert b.times[|b.times| - 2] < cfg.runTime;
      MulMonotone(|a.times| - 1, |b.times| - 2, cfg.timeStep);
      assert false;
    } else if |b.times| < |a.times| {
      assert a.times[|a.times| - 2] < cfg.runTime;
      MulMonotone(|b.times| - 1, |a.times| - 2, cfg.timeStep);
      assert false;
    }
    assert forall k | 0 <= k < |a.times| :: a.times[k] == b.times[k];
  }

  /** A sample time lies in the reaction window exactly when its index is below the delay in ticks. */
  lemma WarmUpByIndex(cfg: Config, m: CarMotion, i: int)
    requires Runnable(cfg)
    requires OnGrid(m, cfg.timeStep) && 0 <= i < |m.times|
    ensures m.times[i] < cfg.rxnTime <==> i < DelayTicks(cfg)
  {
    var d := DelayTicks(cfg);
    assert cfg.rxnTime == d * cfg.timeStep;
    if i < d {
      MulStrictlyMonotone(i, d, cfg.timeStep);
    } else if d < i {
      MulStrictlyMonotone(d, i, cfg.timeStep);
    }
  }

  /**
    The delayed lookup at (time - reaction time) made at sample i, once i is past the
    reaction window, hits a stored sample: the one reaction-time-in-ticks earlier.
   */
  lemma DelayedLookupHits(cfg: Config, m: CarMotion, i: int)
    requires Runnable(cfg)
    requires OnGrid(m, cfg.timeStep) && 0 <= i < |m.times|
    requires m.times[i] >= cfg.rxnTime
    ensures 0 <= DelayTicks(cfg) <= i
    ensures m.times[i] - cfg.rxnTime in m.times
    ensures m.GetInstance(m.times[i] - cfg.rxnTime) == m.instances[i - DelayTicks(cfg)]
  {
    var d := DelayTicks(cfg);
    WarmUpByIndex(cfg, m, i);
    assert m.times[i - d] == (i - d) * cfg.timeStep == m.times[i] - cfg.rxnTime;
    GridIsIncreasing(m, cfg.timeStep);
    LookupOnIncreasingTimes(m, i - d);
  }
}

=== FILE: traffic_run.dfy ===
/**
  The program's run: the scripted lead car, a first follower behind it and a second
  follower behind the first, each follower driven by the trajectory of the car ahead.
 */
module TrafficRun {
  import opened CarMotions
  import opened Parameters
  import opened Simulation
  import opened LeadCar
  import opened FollowingCar

  /**
    The three trajectories of one run, in the order the program builds them. The first
    follower starts at 20 m and the second at 0 m. All three share one time grid.
   */
  method Run(cfg: Config, sqrt: real -> real) returns (leadCar: CarMotion, firstCar: CarMotion, secondCar: CarMotion)
    requires Runnable(cfg)
    ensures IsLeadRun(cfg, leadCar)
    ensures IsFollowerRun(cfg, leadCar, 20.0, sqrt, firstCar)
    ensures IsFollowerRun(cfg, firstCar, 0.0, sqrt, secondCar)
    ensures firstCar.times == leadCar.times && secondCar.times == leadCar.times
  {
    leadCar := GenerateLeadCar(cfg);
    firstCar := GenerateFollowingCar(cfg, leadCar, 20.0, sqrt);
    secondCar := GenerateFollowingCar(cfg, firstCar, 0.0, sqrt);
    GridLengthIsDetermined(cfg, leadCar, firstCar);
    GridLengthIsDetermined(cfg, leadCar, secondCar);
  }

  /**
    With the program's own parameters a finished trajectory holds 10001 samples, one every
    10 ms from 0 to 100 s inclusive.
   */
  lemma DefaultRunLength(m: CarMotion)
    requires TickGrid(Default, m)
    ensures |m.times| == 10001
    ensures m.times[0] == 0 && m.times[|m.times| - 1] == 100000
  {
    SampleCount(Default, m);
  }
}
